=== FILE: README.md ===
# Booking directory: verified model of the store and its views

The booking directory keeps three kinds of records (venues, artists and the
shows that book an artist at a venue) and renders a few views of them. This
project models the data logic under the web handlers in `app.py`:

- the three record types and a store holding them as sequences, with the
  database's guarantees (unique serial ids, every show references an existing
  artist and venue) as the predicate `Records.Valid`;
- the three creation handlers as all-or-nothing operations on that store;
- the venue and artist detail pages, which split a record's shows into past
  and upcoming relative to an evaluation instant `now`;
- the venue listing, which groups venues by distinct `(city, state)` and
  counts each venue's upcoming shows;
- the genre decoding `strip("{").strip("}").split(",")` used by both detail
  pages and the artist edit form;
- the shows page, which joins every show with its venue's and artist's names.

The clock is not read: every view takes one instant `now` as a parameter, so
every property is deterministic. Timestamps are integers on the same scale as `now`.

Modules, one file each: `Outcomes` (Option, Result, typed errors), `Seqs`
(order-preserving selection), `Text` (Python's `strip`, `split`, `join` for
one character), `Genres`, `Records`, `Repository` (creation), `Pages` (detail
pages and edit prefill), `Areas` (venue listing), `ShowListing` (shows page).

Behaviour the model keeps exactly as the code has it:

- The venue page calls a show past when `start_time < now`; the artist page
  and the venue listing call a show upcoming when `start_time > now`. A show
  starting exactly at `now` is therefore upcoming on its venue's page, past on
  its artist's page, and not counted as upcoming in the venue listing
  (`Pages.BoundaryShowDisagrees`, `Areas.ShowClassifiedAlike`). The three
  call sites use two different boundaries, and the model keeps both.
- The venue page computes its past and upcoming counts into locals that are
  never put into the page (app.py:185-186), so `Pages.VenuePage` has no count
  fields; the artist page does carry both counts.
- A lookup of an id with no record makes the handler fail on `None`; the
  model returns `Err(NotFound(..))`.
- The creation handlers do no validation of their own: whatever the database
  rejects is rolled back. The database constraints visible in the schema are
  the NOT NULL and foreign-key columns of `shows` and the declared widths of
  the text columns (`String(120)`, `String(500)`, `String(1500)`; `name` has no
  width), and the 32-bit range of the serial primary keys (`db.Integer`, at
  most 2147483647). Creation fails exactly when one of those is violated, and
  then the store is returned unchanged.
- The pages and the shows page look up each show's artist and venue. In a
  valid store both are always found (`Records.ShowReferencesFound`); the
  model's entry functions still say what to show if one were missing (empty
  name and image), but no valid store reaches that branch.
- Genre decoding of the empty array literal `{}` gives `[""]`, not `[]`
  (`Genres.DecodeEmptyArray`).
- The listing's distinct locations come back from the database in no stated
  order; the model lists them in order of first occurrence among the venues.
- None of the queries behind the lists has an ORDER BY: `venue.shows`,
  `artist.shows`, `filter_by(...).all()` and `Show.query.all()` (app.py:48,
  app.py:64, app.py:117-118, app.py:424). The model fixes one order, the store
  order (insertion order), for all of them; "in store order" in the table
  below refers to that choice.

## Model

| member | source | states |
|---|---|---|
| Seqs.FilterPartition | app.py:170-184 | a predicate and its complement split a list of shows so that every show lands in exactly one of the two selections, counted with multiplicity, and the two lengths add up |
| Seqs.FilterSubsequence | app.py:170-184 | a selection keeps the selected elements in their original relative order: it is the input with some elements deleted |
| Text.Split | app.py:158 | `split(",")` never returns an empty list, no piece contains the separator, and joining the pieces with the separator gives back the input |
| Text.SplitJoin | app.py:158 | splitting a join of separator-free parts gives the parts back |
| Text.Strip | app.py:158 | `strip(c)` returns a contiguous piece of the input that neither starts nor ends with `c`, with only `c` cut off around it, and changes nothing when `c` does not occur |
| Genres.Decode | app.py:158 | decoded genres are never an empty list and no genre contains `,` |
| Genres.DecodeJoin | app.py:285 | joining the decoded genres with `,` gives the stored text with leading and trailing `{` and then `}` removed |
| Genres.DecodeEncode | app.py:328 | a non-empty list of genres without `,`, `{` or `}`, stored as `{a,b,...}`, decodes to the same list |
| Genres.DecodeEmptyArray | app.py:158 | the empty array literal `{}` decodes to one empty genre |
| Records.FindVenue | app.py:155 | the lookup finds a venue exactly when one carries the id, and what it finds carries that id |
| Records.FindArtist | app.py:282 | the lookup finds an artist exactly when one carries the id, and what it finds carries that id |
| Records.FindVenueUnique | app.py:36 | with unique primary keys, looking up a stored venue's id finds that venue |
| Records.FindArtistUnique | app.py:53 | with unique primary keys, looking up a stored artist's id finds that artist |
| Records.ShowReferencesFound | app.py:69-74 | the foreign keys guarantee that a stored show's venue and artist are both found by lookup |
| Repository.EmptyStore | app.py:67-74 | the empty store satisfies the store invariants |
| Repository.FirstOverflow | app.py:38-47 | names a column exactly when some value is wider than its column, and the named column is such a one |
| Repository.CreateVenue | app.py:205-226 | fails exactly when a value exceeds its column width or the id sequence is past 2147483647, reporting which, and then leaves the store unchanged; on success appends exactly the submitted venue under an id no venue had, changes nothing else (the other tables and their id counters stay as they were), and keeps the store invariants |
| Repository.CreateArtist | app.py:389-409 | fails exactly when a value exceeds its column width or the id sequence is past 2147483647, reporting which, and then leaves the store unchanged; on success appends exactly the submitted artist under a fresh id, changes nothing else (the other tables and their id counters stay as they were), and keeps the store invariants |
| Repository.CreateShow | app.py:449-462 | succeeds exactly when artist id, venue id and start time are present, both ids name existing records and the id sequence has a value left; a missing field is reported as such; on failure the store is unchanged; on success exactly one show with the submitted fields and a fresh id is appended and nothing else changes (venues, artists and their id counters stay as they were); the store invariants are kept |
| Repository.CreateVenueThenFind | app.py:205-220 | after a successful venue creation, looking up the new id returns the submitted venue |
| Repository.CreateArtistThenFind | app.py:389-403 | after a successful artist creation, looking up the new id returns the submitted artist |
| Pages.ArtistSlotOf | app.py:172-183 | a venue-page entry carries the show's artist id and start instant, and the name and image link of the artist that id finds |
| Pages.VenueSlotOf | app.py:298-309 | an artist-page entry carries the show's venue id and start instant, and the name and image link of the venue that id finds |
| Pages.VenueDetail | app.py:152-186 | the page exists exactly when the venue does (otherwise not found); it carries the found venue's id, name, address, city, state, phone, website, Facebook link, seeking flag, image link and description as stored and its genres decoded; its past and upcoming lists together have one entry per show of the venue; every past entry starts before `now` and every upcoming entry at or after `now` |
| Pages.VenueListsTimed | app.py:170-184 | the venue page's two lists have one entry per show of the venue, past entries start before `now`, upcoming ones at or after it |
| Pages.ShowVenue | app.py:152-188 | the handler's single pass over the venue's shows builds exactly the page `VenueDetail` describes |
| Pages.SplitForVenue | app.py:170-184 | the loop appends to the past list the slots of exactly the shows starting before `now`, and to the upcoming list those of all others, each in store order |
| Pages.ArtistDetail | app.py:278-312 | the page exists exactly when the artist does; it carries the found artist's id, name, city, state, phone, Facebook link, image link, website, seeking flag and description as stored and its genres decoded; its counts equal its list lengths and add up to the artist's number of shows; every upcoming entry starts after `now` and every past entry at or before `now` |
| Pages.ArtistListsTimed | app.py:296-310 | the artist page's two lists have one entry per show of the artist, upcoming entries start after `now`, past ones at or before it |
| Pages.ShowArtist | app.py:278-314 | the handler's single pass over the artist's shows builds exactly the page `ArtistDetail` describes |
| Pages.SplitForArtist | app.py:296-310 | the loop appends to the upcoming list the slots of exactly the shows starting after `now`, and to the past list those of all others, each in store order |
| Pages.EditArtist | app.py:320-333 | the edit form's prefill exists exactly when the artist does (otherwise not found), and then holds the found artist's name, city, state, phone, image link, Facebook link, website, seeking flag and description as stored, and its genres decoded |
| Pages.VenuePartition | app.py:170-184 | both lists keep the venue's shows in their store order, and each show of the venue is in exactly one of them: past exactly when it starts before `now`, upcoming exactly when it starts at or after `now` |
| Pages.ArtistPartition | app.py:296-312 | both lists keep the artist's shows in their store order, and each show of the artist is in exactly one of them: upcoming exactly when it starts after `now`, past exactly when it starts at or before `now` |
| Pages.VenuePagePlacement | app.py:170-184 | a stored show's entry appears under past shows of its venue's page when it starts before `now` and under upcoming shows otherwise, never in both |
| Pages.ArtistPagePlacement | app.py:296-310 | a stored show's entry appears under upcoming shows of its artist's page when it starts after `now` and under past shows otherwise, never in both |
| Pages.BoundaryShowDisagrees | app.py:171-297 | a show starting exactly at `now` is listed as upcoming on its venue's page and as past on its artist's page |
| Pages.EditAgreesWithPage | app.py:328 | the edit form and the artist page decode the stored genres to the same list |
| Areas.Locations | app.py:108-109 | the distinct locations: no location twice, every venue's location present, and each present location is some venue's |
| Areas.Listing | app.py:105-132 | no two areas of the venue listing share the same `(city, state)` |
| Areas.VenueInOneArea | app.py:108-130 | when venue ids are unique (as primary keys are), every venue appears in at least one area, in at most one, and in an area exactly when the area's `(city, state)` is the venue's |
| Areas.VenueHasArea | app.py:108-109 | the listing has an area at every venue's `(city, state)` |
| Areas.VenueAreaIff | app.py:117-118 | an area lists a venue exactly when the area's location is the venue's |
| Areas.UpcomingCountBounded | app.py:122-127 | a venue's `num_upcoming_shows` is the number of its shows starting after `now` and never exceeds its total number of shows |
| Areas.ShowClassifiedAlike | app.py:122-297 | a show starting after `now` is upcoming on both pages and counted in the listing; once `now` is past its start it is past on both pages and not counted; a show starting exactly at `now` is not counted |
| ShowListing.ListShows | app.py:422-435 | one entry per stored show in store order, each with the show's ids and time, the name of the venue its venue id names, and the name and image of the artist its artist id names |
| ShowListing.Shows | app.py:424-434 | the handler's pass over all shows builds exactly `ListShows` |
| ShowListing.CreateShowExtendsListing | app.py:449-462 | a successful show creation adds exactly one entry to the shows page, at the end; a failed one leaves the page unchanged |
| ShowListing.CreateVenueKeepsListing | app.py:205-226 | creating a venue leaves the shows page unchanged |
| ShowListing.CreateArtistKeepsListing | app.py:389-409 | creating an artist leaves the shows page unchanged |
| ShowListing.AddedVenueKeepsEntries | app.py:424-434 | adding a venue to a valid store changes no show's entry on the shows page |
| ShowListing.AddedArtistKeepsEntries | app.py:424-434 | adding an artist to a valid store changes no show's entry on the shows page |

## Left out

- Routing, template rendering, `flash`, `abort`, the 404/500 handlers and the file logging set-up (app.py:97-99, app.py:471-490): presentation and I/O.
- The session mechanics (`add`, `commit`, `rollback`, `close`), `Migrate` and the configuration: the store is a value and a creation returns either a new store or the old one.
- Database failures other than the schema's own constraints (lost connection, and so on): they are outside the code's view and would also leave the store unchanged.
- The serial id sequence advancing on a rolled-back insert: the database consumes an id even when the insert fails, while the model's counter stays put, so after a failed creation the next record's id in the model is one the database would have skipped, and the pages display that different id (app.py:125, app.py:156, app.py:173, app.py:283, app.py:299, app.py:428-430). No property here depends on which value a new id takes: each one holds for any id not yet in its table.
- PostgreSQL's truncation of over-long values whose excess characters are all spaces: the model rejects every over-wide value.
- `format_datetime` (app.py:81-87) and the `strftime` rendering of start times: the slots carry the raw start instant instead of its text.
- The search handlers (app.py:135-149, app.py:261-275), the edit submissions and the venue edit form (app.py:340-373) and `delete_venue` (app.py:237-244): they return fixed data or do nothing.
- The artist index (app.py:249-258): a plain projection of every artist to id and name.
- The forms module, which is not part of this model: form data arrive as records; absent show fields are `None`; the genre field arrives as the text the database driver stores for the selected list.
- Genres.Encode: is the model's unquoted form and matches the stored text only for elements the database leaves unquoted; the database quotes empty elements, elements with white space, `"` or `\`, and the word NULL (so `[""]` is stored as `{""}`), and decoding then keeps the quotes.
- The error branch of `create_artist_submission` (app.py:410-413) refers to an undefined `data`; it only affects the message shown, not the store.
- NULL text columns: every text column is nullable in the schema, but the forms always supply strings, so the model uses plain strings.
- The clock `datetime.now()`: every view takes `now` as a parameter. The code reads the clock again at every comparison, once per show on the detail pages (app.py:171, app.py:297) and once per venue in the listing (app.py:123), so shows on one page are compared against successive instants; the model compares a whole page against one instant.
- The order of the listed shows and venues: the queries have no ORDER BY, so the database may return them in any order; the model uses store order.

=== FILE: areas.dfy ===
/** The venue listing (app.py:105-132): venues grouped by their distinct
    `(city, state)`, each venue shown with the number of its shows that start
    after `now`. The database returns the distinct locations in no specified
    order; the model lists them in order of first occurrence in the store. */
module Areas {
  import opened Seqs
  import opened Records
  import Pages

  datatype Location = Location(city: string, state: string)

  /** One venue as the listing shows it. */
  datatype VenueEntry = VenueEntry(id: nat, name: string, numUpcomingShows: nat)

  /** One location and its venues. */
  datatype Area = Area(city: string, state: string, venues: seq<VenueEntry>)

  function LocationOf(v: Venue): Location
  {
    Location(v.city, v.state)
  }

  function AtLocation(l: Location): Venue -> bool
  {
    (v: Venue) => LocationOf(v) == l
  }

  /** `Venue.query.distinct(Venue.city, Venue.state)`: each location of the
      venues exactly once. */
  function Locations(venues: seq<Venue>): (locs: seq<Location>)
    ensures forall i, j :: 0 <= i < j < |locs| ==> locs[i] != locs[j]
    ensures forall k :: 0 <= k < |venues| ==> LocationOf(venues[k]) in locs
    ensures forall m :: 0 <= m < |locs| ==> exists k :: 0 <= k < |venues| && LocationOf(venues[k]) == locs[m]
    decreases |venues|
  {
    if venues == [] then []
    else
      var rest := Locations(venues[..|venues| - 1]);
      var l := LocationOf(venues[|venues| - 1]);
      if l in rest then rest else rest + [l]
  }

  /** The query of app.py:122-123: shows of this venue that start after `now`. */
  function UpcomingAt(venueId: int, now: int): Show -> bool
  {
    (s: Show) => s.venueId == venueId && s.startTime > now
  }

  function NumUpcomingShows(st: Store, venueId: int, now: int): nat
  {
    |Filter(st.shows, UpcomingAt(venueId, now))|
  }

  function EntryOf(st: Store, v: Venue, now: int): VenueEntry
  {
    VenueEntry(v.id, v.name, NumUpcomingShows(st, v.id, now))
  }

  /** The entries of `venues`, one per venue, in order. */
  function Entries(st: Store, venues: seq<Venue>, now: int): (es: seq<VenueEntry>)
    ensures |es| == |venues|
    ensures forall k :: 0 <= k < |venues| ==> es[k] == EntryOf(st, venues[k], now)
  {
    if venues == [] then [] else [EntryOf(st, venues[0], now)] + Entries(st, venues[1..], now)
  }

  /** `Venue.query.filter_by(city=..., state=...)` turned into an area. */
  function AreaAt(st: Store, l: Location, now: int): Area
  {
    Area(l.city, l.state, Entries(st, Filter(st.venues, AtLocation(l)), now))
  }

  /** The areas of the listing, one per location. */
  function AreasOf(st: Store, locs: seq<Location>, now: int): (areas: seq<Area>)
    ensures |areas| == |locs|
    ensures forall a :: 0 <= a < |locs| ==> areas[a] == AreaAt(st, locs[a], now)
  {
    if locs == [] then [] else [AreaAt(st, locs[0], now)] + AreasOf(st, locs[1..], now)
  }

  /** The venue listing at instant `now`. No two areas share a location. */
  function Listing(st: Store, now: int): (areas: seq<Area>)
    ensures forall a, b :: 0 <= a < b < |areas| ==>
              areas[a].city != areas[b].city || areas[a].state != areas[b].state
  {
    var locs := Locations(st.venues);
    AreasKeepLocations(st, locs, now);
    AreasOf(st, locs, now)
  }

  /** Area `a` of the listing sits at location `a`. */
  lemma AreasKeepLocations(st: Store, locs: seq<Location>, now: int)
    requires forall i, j :: 0 <= i < j < |locs| ==> locs[i] != locs[j]
    ensures var areas := AreasOf(st, locs, now);
            forall a, b :: 0 <= a < b < |areas| ==>
              areas[a].city != areas[b].city || areas[a].state != areas[b].state
  {
    var areas := AreasOf(st, locs, now);
    forall a, b | 0 <= a < b < |areas|
      ensures areas[a].city != areas[b].city || areas[a].state != areas[b].state
    {
      assert areas[a] == AreaAt(st, locs[a], now);
      assert areas[b] == AreaAt(st, locs[b], now);
    }
  }

  /** The area lists the venue with this id. */
  predicate Lists(area: Area, id: nat)
  {
    exists k :: 0 <= k < |area.venues| && area.venues[k].id == id
  }

  /** Every venue of a store with unique venue ids appears in exactly one
      area of the listing, the one whose `(city, state)` is the venue's. */
  lemma VenueInOneArea(st: Store, now: int, v: Venue)
    requires VenueIdsUnique(st.venues)
    requires v in st.venues
    ensures var areas := Listing(st, now);
            exists a :: 0 <= a < |areas| && Lists(areas[a], v.id)
    ensures var areas := Listing(st, now);
            forall a :: 0 <= a < |areas| ==>
              (Lists(areas[a], v.id) <==> areas[a].city == v.city && areas[a].state == v.state)
    ensures var areas := Listing(st, now);
            forall a, b :: 0 <= a < |areas| && 0 <= b < |areas| && Lists(areas[a], v.id) && Lists(areas[b], v.id)
              ==> a == b
  {
    VenueAreaIff(st, now, v);
    VenueHasArea(st, now, v);
    OneAreaPerLocation(Listing(st, now), v.city, v.state);
  }

  /** Some area of the listing sits at the venue's location. */
  lemma VenueHasArea(st: Store, now: int, v: Venue)
    requires v in st.venues
    ensures var areas := Listing(st, now);
            exists a :: 0 <= a < |areas| && areas[a].city == v.city && areas[a].state == v.state
  {
    ListingAreas(st, now);
    var locs := Locations(st.venues);
    var a :| 0 <= a < |locs| && locs[a] == LocationOf(v);
    assert Listing(st, now)[a] == AreaAt(st, locs[a], now);
  }

  predicate SitsAt(area: Area, city: string, state: string)
  {
    area.city == city && area.state == state
  }

  /** In areas with pairwise different locations, at most one sits at any
      given location. */
  lemma OneAreaPerLocation(areas: seq<Area>, city: string, state: string)
    requires forall a, b :: 0 <= a < b < |areas| ==>
               areas[a].city != areas[b].city || areas[a].state != areas[b].state
    ensures forall a, b ::
              0 <= a < |areas| && 0 <= b < |areas| && SitsAt(areas[a], city, state) && SitsAt(areas[b], city, state)
              ==> a == b
  {
  }

  /** An area of the listing lists a venue exactly when it is at the venue's
      location. */
  lemma VenueAreaIff(st: Store, now: int, v: Venue)
    requires VenueIdsUnique(st.venues)
    requires v in st.venues
    ensures var areas := Listing(st, now);
            forall a :: 0 <= a < |areas| ==>
              (Lists(areas[a], v.id) <==> areas[a].city == v.city && areas[a].state == v.state)
  {
    var areas := Listing(st, now);
    var locs := Locations(st.venues);
    ListingAreas(st, now);
    forall a | 0 <= a < |areas|
      ensures Lists(areas[a], v.id) <==> areas[a].city == v.city && areas[a].state == v.state
    {
      AreaListsExactly(st, now, locs[a], v);
    }
  }

  /** The listing has one area per distinct location, in location order. */
  lemma ListingAreas(st: Store, now: int)
    ensures |Listing(st, now)| == |Locations(st.venues)|
    ensures forall a :: 0 <= a < |Listing(st, now)| ==>
              Listing(st, now)[a] == AreaAt(st, Locations(st.venues)[a], now)
  {
  }

  /** An area lists a venue (of a store with unique venue ids) exactly when the venue is at the
      area's location. */
  lemma AreaListsExactly(st: Store, now: int, l: Location, v: Venue)
    requires VenueIdsUnique(st.venues)
    requires v in st.venues
    ensures Lists(AreaAt(st, l, now), v.id) <==> LocationOf(v) == l
  {
    if LocationOf(v) == l {
      AreaListsLocal(st, now, l, v);
    }
    if Lists(AreaAt(st, l, now), v.id) {
      AreaListsOnlyLocal(st, now, l, v);
    }
  }

  lemma AreaListsLocal(st: Store, now: int, l: Location, v: Venue)
    requires v in st.venues
    requires LocationOf(v) == l
    ensures Lists(AreaAt(st, l, now), v.id)
  {
    var here := Filter(st.venues, AtLocation(l));
    FilterMembership(st.venues, AtLocation(l), v);
    var k :| 0 <= k < |here| && here[k] == v;
    assert AreaAt(st, l, now).venues[k].id == v.id;
  }

  lemma AreaListsOnlyLocal(st: Store, now: int, l: Location, v: Venue)
    requires VenueIdsUnique(st.venues)
    requires v in st.venues
    requires Lists(AreaAt(st, l, now), v.id)
    ensures LocationOf(v) == l
  {
    var here := Filter(st.venues, AtLocation(l));
    var area := AreaAt(st, l, now);
    var k :| 0 <= k < |area.venues| && area.venues[k].id == v.id;
    var w := here[k];
    FilterMembership(st.venues, AtLocation(l), w);
    assert w.id == v.id && LocationOf(w) == l;
    var i :| 0 <= i < |st.venues| && st.venues[i] == w;
    var j :| 0 <= j < |st.venues| && st.venues[j] == v;
    assert i == j;
  }

  /** A venue's upcoming-show count is the number of its shows the artist
      page would call upcoming, so it never exceeds the venue's total number
      of shows. */
  lemma UpcomingCountBounded(st: Store, venueId: int, now: int)
    ensures NumUpcomingShows(st, venueId, now)
            == |Filter(Pages.VenueShows(st, venueId), Pages.StartsAfter(now))|
    ensures NumUpcomingShows(st, venueId, now) <= |Pages.VenueShows(st, venueId)|
  {
    FilterFilter(st.shows, Pages.AtVenue(venueId), Pages.StartsAfter(now));
    assert Filter(st.shows, UpcomingAt(venueId, now))
        == Filter(st.shows, Both(Pages.AtVenue(venueId), Pages.StartsAfter(now))) by {
      FilterSamePredicate(st.shows, UpcomingAt(venueId, now),
                          Both(Pages.AtVenue(venueId), Pages.StartsAfter(now)));
    }
  }

  /** Away from the boundary instant every view agrees on a show: before it
      starts it is upcoming on its venue's page and on its artist's page and
      counted in its venue's upcoming-show count; once `now` has passed its
      start it is past on both pages and no longer counted. A show starting
      exactly at `now` is not counted either. Only the clock
      moves; the stored show is the same record. */
  lemma ShowClassifiedAlike(st: Store, s: Show, now: int)
    requires Valid(st)
    requires s in st.shows
    ensures var venuePage := Pages.VenueDetail(st, s.venueId, now);
            var artistPage := Pages.ArtistDetail(st, s.artistId, now);
            venuePage.Ok? && artistPage.Ok? &&
            (s.startTime > now ==>
               && Pages.ArtistSlotOf(st, s) in venuePage.value.upcomingShows
               && Pages.VenueSlotOf(st, s) in artistPage.value.upcomingShows
               && s in Filter(st.shows, UpcomingAt(s.venueId, now))) &&
            (s.startTime < now ==>
               && Pages.ArtistSlotOf(st, s) in venuePage.value.pastShows
               && Pages.VenueSlotOf(st, s) in artistPage.value.pastShows
               && s !in Filter(st.shows, UpcomingAt(s.venueId, now)))
    ensures s.startTime == now ==> s !in Filter(st.shows, UpcomingAt(s.venueId, now))
  {
    Pages.VenuePagePlacement(st, s, now);
    Pages.ArtistPagePlacement(st, s, now);
    FilterMembership(st.shows, UpcomingAt(s.venueId, now), s);
  }
}

=== FILE: genres.dfy ===
/** The genre column holds a list of genres as text in the database's
    array-literal form, `{Jazz,Swing}`. The detail pages and the edit form turn
    it back into a list with `genres.strip("{").strip("}").split(",")`
    (app.py:158, app.py:285, app.py:328). */
module Genres {
  import opened Text

  /** The list of genres shown for a stored genre text. */
  function Decode(text: string): (genres: seq<string>)
    ensures |genres| >= 1
    ensures forall k :: 0 <= k < |genres| ==> ',' !in genres[k]
  {
    Split(Strip(Strip(text, '{'), '}'), ',')
  }

  /** The model's unquoted array-literal text for a list of genres. The
      database itself quotes some elements (see `Plain`), so this is the
      stored text only for genres it leaves unquoted. */
  function Encode(genres: seq<string>): string
  {
    "{" + Join(genres, ',') + "}"
  }

  /** A genre the unquoted form `Encode` can carry and decoding recovers: it
      holds no separator and no brace. The database writes an element in
      quotes when it is empty, holds white space, `"` or `\`, or is the word
      NULL; `Plain` does not exclude those, so for them `Encode` is not the
      stored text. */
  predicate Plain(genre: string)
  {
    ',' !in genre && '{' !in genre && '}' !in genre
  }

  /** Joining the decoded genres with `,` gives back the stored text with its
      braces stripped: decoding loses nothing between the braces. */
  lemma DecodeJoin(text: string)
    ensures Join(Decode(text), ',') == Strip(Strip(text, '{'), '}')
  {
  }

  /** Round trip: a non-empty list of plain genres, stored as an array
      literal, decodes to the same list. */
  lemma {:induction false} DecodeEncode(genres: seq<string>)
    requires |genres| >= 1
    requires forall k :: 0 <= k < |genres| ==> Plain(genres[k])
    ensures Decode(Encode(genres)) == genres
  {
    var body := Join(genres, ',');
    JoinAvoids(genres, ',', '{');
    JoinAvoids(genres, ',', '}');
    StripBraces(body);
    SplitJoin(genres, ',');
  }

  /** Stripping the braces off `{body}` gives `body` back when `body` holds
      no brace. */
  lemma StripBraces(body: string)
    requires '{' !in body && '}' !in body
    ensures Strip(Strip("{" + body + "}", '{'), '}') == body
  {
    var closed := body + "}";
    assert "{" + body + "}" == ['{'] + closed;
    StripOpening(closed);
    StripClosing(body);
  }

  lemma StripOpening(closed: string)
    requires closed != [] && closed[0] != '{' && closed[|closed| - 1] != '{'
    ensures Strip(['{'] + closed, '{') == closed
  {
    TrimStartOne(closed, '{');
  }

  lemma StripClosing(body: string)
    requires '}' !in body
    ensures Strip(body + "}", '}') == body
  {
    var closed := body + "}";
    if body == [] {
      assert TrimStart(closed, '}') == [];
    } else {
      assert closed[0] == body[0];
      assert TrimStart(closed, '}') == closed;
      TrimEndOne(body, '}');
    }
  }

  /** An empty genre list does not survive the round trip: its array literal
      is `{}`, and decoding `{}` gives one empty genre rather than none. */
  lemma DecodeEmptyArray()
    ensures Encode([]) == "{}"
    ensures Decode("{}") == [""]
  {
    assert Encode([""]) == "{}";
    DecodeEncode([""]);
  }
}

=== FILE: listing.dfy ===
/** The shows page (app.py:422-435): every stored show, in store order,
    joined with its venue's name and its artist's name and image. */
module ShowListing {
  import opened Outcomes
  import opened Records
  import Repository

  datatype ShowEntry = ShowEntry(
    venueId: nat,
    venueName: string,
    artistId: nat,
    artistName: string,
    artistImageLink: string,
    startTime: int)

  /** The entry for one show. A valid store always has the show's venue
      and artist; the empty fallbacks are never reached there. */
  function EntryFor(st: Store, s: Show): ShowEntry
  {
    var venueName := match FindVenue(st.venues, s.venueId)
                     case Some(v) => v.name
                     case None => "";
    match FindArtist(st.artists, s.artistId)
    case Some(a) => ShowEntry(s.venueId, venueName, s.artistId, a.name, a.imageLink, s.startTime)
    case None => ShowEntry(s.venueId, venueName, s.artistId, "", "", s.startTime)
  }

  /** The entries for `shows`, one per show, in order. */
  function Entries(st: Store, shows: seq<Show>): (es: seq<ShowEntry>)
    ensures |es| == |shows|
    ensures forall k :: 0 <= k < |shows| ==> es[k] == EntryFor(st, shows[k])
  {
    if shows == [] then [] else [EntryFor(st, shows[0])] + Entries(st, shows[1..])
  }

  /** The shows page of a valid store: one entry per stored show, in store
      order, carrying the show's ids and time and the names of the venue and
      artist those ids name. */
  function ListShows(st: Store): (es: seq<ShowEntry>)
    requires Valid(st)
    ensures |es| == |st.shows|
    ensures forall k :: 0 <= k < |es| ==>
              && es[k].venueId == st.shows[k].venueId
              && es[k].artistId == st.shows[k].artistId
              && es[k].startTime == st.shows[k].startTime
    ensures forall k :: 0 <= k < |es| ==>
              && FindVenue(st.venues, es[k].venueId).Some?
              && es[k].venueName == FindVenue(st.venues, es[k].venueId).value.name
    ensures forall k :: 0 <= k < |es| ==>
              && FindArtist(st.artists, es[k].artistId).Some?
              && es[k].artistName == FindArtist(st.artists, es[k].artistId).value.name
              && es[k].artistImageLink == FindArtist(st.artists, es[k].artistId).value.imageLink
  {
    Entries(st, st.shows)
  }

  /** `shows` as written: one pass over all shows, appending an entry for
      each. It builds exactly `ListShows`. */
  method Shows(st: Store) returns (es: seq<ShowEntry>)
    requires Valid(st)
    ensures es == ListShows(st)
  {
    es := [];
    for i := 0 to |st.shows|
      invariant es == Entries(st, st.shows[..i])
    {
      EntriesStep(st, st.shows, i);
      es := es + [EntryFor(st, st.shows[i])];
    }
    assert st.shows[..|st.shows|] == st.shows;
  }

  /** One loop step: the entries of a one-longer prefix end in the entry of
      the next show. */
  lemma EntriesStep(st: Store, shows: seq<Show>, i: nat)
    requires i < |shows|
    ensures Entries(st, shows[..i + 1]) == Entries(st, shows[..i]) + [EntryFor(st, shows[i])]
  {
    assert shows[..i + 1] == shows[..i] + [shows[i]];
  }

  /** Entries depend on the store's venues and artists only. */
  lemma EntriesSameRecords(st: Store, st': Store, shows: seq<Show>)
    requires st'.venues == st.venues && st'.artists == st.artists
    ensures Entries(st', shows) == Entries(st, shows)
  {
    assert forall k :: 0 <= k < |shows| ==> EntryFor(st', shows[k]) == EntryFor(st, shows[k]);
  }

  /** A successful show creation adds exactly one entry to the shows page, at
      the end, for the new show; a failed one leaves the page as it was. */
  lemma CreateShowExtendsListing(st: Store, f: Repository.ShowForm)
    requires Valid(st)
    ensures var r := Repository.CreateShow(st, f);
            r.result.Ok? ==>
              ListShows(r.store) == ListShows(st) + [EntryFor(r.store, r.store.shows[|st.shows|])]
    ensures var r := Repository.CreateShow(st, f);
            r.result.Err? ==> ListShows(r.store) == ListShows(st)
  {
    var r := Repository.CreateShow(st, f);
    if r.result.Ok? {
      AppendedShowListed(st, r.store);
    }
  }

  /** A valid store grown by one show, with the same venues and artists,
      lists one more entry at the end. */
  lemma AppendedShowListed(st: Store, st': Store)
    requires Valid(st) && Valid(st')
    requires st'.venues == st.venues && st'.artists == st.artists
    requires |st'.shows| == |st.shows| + 1 && st'.shows[..|st.shows|] == st.shows
    ensures ListShows(st') == ListShows(st) + [EntryFor(st', st'.shows[|st.shows|])]
  {
    var n := |st.shows|;
    EntriesStep(st', st'.shows, n);
    assert st'.shows[..n + 1] == st'.shows;
    EntriesSameRecords(st, st', st.shows);
  }

  /** Entries depend only on what the store's lookups find for each show. */
  lemma EntriesSameLookups(st: Store, st': Store, shows: seq<Show>)
    requires forall k :: 0 <= k < |shows| ==> EntryFor(st', shows[k]) == EntryFor(st, shows[k])
    ensures Entries(st', shows) == Entries(st, shows)
  {
  }

  /** Creating a venue leaves the shows page unchanged. */
  lemma CreateVenueKeepsListing(st: Store, f: Repository.VenueForm)
    requires Valid(st)
    ensures ListShows(Repository.CreateVenue(st, f).store) == ListShows(st)
  {
    var r := Repository.CreateVenue(st, f);
    if r.result.Ok? {
      AddedVenueKeepsEntries(st, r.store, Repository.VenueFrom(r.result.value, f));
    }
  }

  /** Adding a venue changes no show's entry: each show already finds its
      venue among the old ones. */
  lemma AddedVenueKeepsEntries(st: Store, st': Store, v: Venue)
    requires Valid(st)
    requires st'.venues == st.venues + [v] && st'.artists == st.artists && st'.shows == st.shows
    ensures Entries(st', st'.shows) == Entries(st, st.shows)
  {
    forall k | 0 <= k < |st.shows|
      ensures EntryFor(st', st.shows[k]) == EntryFor(st, st.shows[k])
    {
      ShowReferencesFound(st, st.shows[k]);
      FindVenueAppend(st.venues, v, st.shows[k].venueId);
    }
    EntriesSameLookups(st, st', st.shows);
  }

  /** Creating an artist leaves the shows page unchanged. */
  lemma CreateArtistKeepsListing(st: Store, f: Repository.ArtistForm)
    requires Valid(st)
    ensures ListShows(Repository.CreateArtist(st, f).store) == ListShows(st)
  {
    var r := Repository.CreateArtist(st, f);
    if r.result.Ok? {
      AddedArtistKeepsEntries(st, r.store, Repository.ArtistFrom(r.result.value, f));
    }
  }

  /** Adding an artist changes no show's entry: each show already finds its
      artist among the old ones. */
  lemma AddedArtistKeepsEntries(st: Store, st': Store, a: Artist)
    requires Valid(st)
    requires st'.artists == st.artists + [a] && st'.venues == st.venues && st'.shows == st.shows
    ensures Entries(st', st'.shows) == Entries(st, st.shows)
  {
    forall k | 0 <= k < |st.shows|
      ensures EntryFor(st', st.shows[k]) == EntryFor(st, st.shows[k])
    {
      ShowReferencesFound(st, st.shows[k]);
      FindArtistAppend(st.artists, a, st.shows[k].artistId);
    }
    EntriesSameLookups(st, st', st.shows);
  }
}

=== FILE: outcomes.dfy ===
/** Optional values and the typed failures of the booking directory's store
    operations. The handlers catch every database error and roll back; the
    model names each failure instead of collapsing them into one. */
module Outcomes {

  datatype Option<+T> = None | Some(value: T)

  /** Why an operation did not produce a value. */
  datatype Error =
    | NotFound(entity: string)          // a lookup by id found no record
    | MissingField(field: string)       // a NOT NULL column was given no value
    | UnknownReference(field: string)   // a foreign key names no existing record
    | TooLong(field: string)            // a value exceeds its column's declared width
    | IdsExhausted(table: string)       // the table's serial id sequence is past its last value

  datatype Result<+T> = Ok(value: T) | Err(error: Error)
}

=== FILE: pages.dfy ===
/** The venue and artist detail pages (app.py:152-188, app.py:278-314) and
    the artist edit form's prefill (app.py:319-337). Each page lists the
    record's shows split into past and upcoming relative to `now`; the two
    pages draw the line differently:
      - the venue page calls a show past when `start_time < now`, so a show
        starting exactly at `now` is upcoming there;
      - the artist page calls a show upcoming when `start_time > now`, so the
        same show is past there. */
module Pages {
  import opened Outcomes
  import opened Seqs
  import opened Records
  import Genres

  /** One show as the venue page lists it: who plays, and when. */
  datatype ArtistSlot = ArtistSlot(artistId: nat, artistName: string, artistImageLink: string, startTime: int)

  /** One show as the artist page lists it: where, and when. */
  datatype VenueSlot = VenueSlot(venueId: nat, venueName: string, venueImageLink: string, startTime: int)

  datatype VenuePage = VenuePage(
    id: nat,
    name: string,
    genres: seq<string>,
    address: string,
    city: string,
    state: string,
    phone: string,
    website: string,
    facebookLink: string,
    seekingTalent: bool,
    imageLink: string,
    description: string,
    pastShows: seq<ArtistSlot>,
    upcomingShows: seq<ArtistSlot>)

  datatype ArtistPage = ArtistPage(
    id: nat,
    name: string,
    genres: seq<string>,
    city: string,
    state: string,
    phone: string,
    facebookLink: string,
    imageLink: string,
    website: string,
    seekingVenue: bool,
    description: string,
    upcomingShows: seq<VenueSlot>,
    pastShows: seq<VenueSlot>,
    pastShowsCount: nat,
    upcomingShowsCount: nat)

  /** The artist edit form's prefill data. */
  datatype ArtistEdit = ArtistEdit(
    name: string,
    city: string,
    state: string,
    phone: string,
    imageLink: string,
    genres: seq<string>,
    facebookLink: string,
    website: string,
    seekingVenue: bool,
    description: string)

  function AtVenue(venueId: int): Show -> bool
  {
    (s: Show) => s.venueId == venueId
  }

  function ByArtist(artistId: int): Show -> bool
  {
    (s: Show) => s.artistId == artistId
  }

  /** The venue page's test for a past show (app.py:171). */
  function StartsBefore(now: int): Show -> bool
  {
    (s: Show) => s.startTime < now
  }

  /** The artist page's and the venue listing's test for an upcoming show
      (app.py:297, app.py:123). */
  function StartsAfter(now: int): Show -> bool
  {
    (s: Show) => s.startTime > now
  }

  /** `venue.shows`: the venue's shows in store order. */
  function VenueShows(st: Store, venueId: int): seq<Show>
  {
    Filter(st.shows, AtVenue(venueId))
  }

  /** `artist.shows`: the artist's shows in store order. */
  function ArtistShows(st: Store, artistId: int): seq<Show>
  {
    Filter(st.shows, ByArtist(artistId))
  }

  /** The venue page's past shows: those starting strictly before `now`. */
  function VenuePastShows(st: Store, venueId: int, now: int): seq<Show>
  {
    Filter(VenueShows(st, venueId), StartsBefore(now))
  }

  /** The venue page's upcoming shows: every other show of the venue. */
  function VenueUpcomingShows(st: Store, venueId: int, now: int): seq<Show>
  {
    Filter(VenueShows(st, venueId), Not(StartsBefore(now)))
  }

  /** The artist page's upcoming shows: those starting strictly after `now`. */
  function ArtistUpcomingShows(st: Store, artistId: int, now: int): seq<Show>
  {
    Filter(ArtistShows(st, artistId), StartsAfter(now))
  }

  /** The artist page's past shows: every other show of the artist. */
  function ArtistPastShows(st: Store, artistId: int, now: int): seq<Show>
  {
    Filter(ArtistShows(st, artistId), Not(StartsAfter(now)))
  }

  /** The venue page's entry for a show. A valid store always has the
      show's artist; the empty fallback is never reached there. */
  function ArtistSlotOf(st: Store, s: Show): (slot: ArtistSlot)
    ensures slot.artistId == s.artistId && slot.startTime == s.startTime
    ensures FindArtist(st.artists, s.artistId).Some? ==>
              && slot.artistName == FindArtist(st.artists, s.artistId).value.name
              && slot.artistImageLink == FindArtist(st.artists, s.artistId).value.imageLink
  {
    match FindArtist(st.artists, s.artistId)
    case Some(a) => ArtistSlot(s.artistId, a.name, a.imageLink, s.startTime)
    case None => ArtistSlot(s.artistId, "", "", s.startTime)
  }

  /** The artist page's entry for a show. A valid store always has the
      show's venue; the empty fallback is never reached there. */
  function VenueSlotOf(st: Store, s: Show): (slot: VenueSlot)
    ensures slot.venueId == s.venueId && slot.startTime == s.startTime
    ensures FindVenue(st.venues, s.venueId).Some? ==>
              && slot.venueName == FindVenue(st.venues, s.venueId).value.name
              && slot.venueImageLink == FindVenue(st.venues, s.venueId).value.imageLink
  {
    match FindVenue(st.venues, s.venueId)
    case Some(v) => VenueSlot(s.venueId, v.name, v.imageLink, s.startTime)
    case None => VenueSlot(s.venueId, "", "", s.startTime)
  }

  /** The venue page's entries for `shows`, one per show, in order. */
  function ArtistSlots(st: Store, shows: seq<Show>): (slots: seq<ArtistSlot>)
    ensures |slots| == |shows|
    ensures forall k :: 0 <= k < |shows| ==> slots[k] == ArtistSlotOf(st, shows[k])
  {
    if shows == [] then [] else [ArtistSlotOf(st, shows[0])] + ArtistSlots(st, shows[1..])
  }

  /** The artist page's entries for `shows`, one per show, in order. */
  function VenueSlots(st: Store, shows: seq<Show>): (slots: seq<VenueSlot>)
    ensures |slots| == |shows|
    ensures forall k :: 0 <= k < |shows| ==> slots[k] == VenueSlotOf(st, shows[k])
  {
    if shows == [] then [] else [VenueSlotOf(st, shows[0])] + VenueSlots(st, shows[1..])
  }

  /** The venue page shows the stored venue: every field copied as stored,
      the genres decoded. */
  predicate PresentsVenue(page: VenuePage, v: Venue)
  {
    && page.id == v.id && page.name == v.name && page.genres == Genres.Decode(v.genres)
    && page.address == v.address && page.city == v.city && page.state == v.state
    && page.phone == v.phone && page.website == v.website && page.facebookLink == v.facebookLink
    && page.seekingTalent == v.seekingTalent && page.imageLink == v.imageLink
    && page.description == v.description
  }

  /** The artist page shows the stored artist: every field copied as stored,
      the genres decoded. */
  predicate PresentsArtist(page: ArtistPage, a: Artist)
  {
    && page.id == a.id && page.name == a.name && page.genres == Genres.Decode(a.genres)
    && page.city == a.city && page.state == a.state && page.phone == a.phone
    && page.facebookLink == a.facebookLink && page.imageLink == a.imageLink
    && page.website == a.website && page.seekingVenue == a.seekingVenue
    && page.description == a.description
  }

  /** The venue detail page for `venueId` at instant `now`. */
  function VenueDetail(st: Store, venueId: int, now: int): (r: Result<VenuePage>)
    ensures r.Err? <==> !HasVenue(st, venueId)
    ensures r.Err? ==> r.error.NotFound?
    ensures r.Ok? ==> PresentsVenue(r.value, FindVenue(st.venues, venueId).value)
    ensures r.Ok? ==> |r.value.pastShows| + |r.value.upcomingShows| == |VenueShows(st, venueId)|
    ensures r.Ok? ==> forall k :: 0 <= k < |r.value.pastShows| ==> r.value.pastShows[k].startTime < now
    ensures r.Ok? ==> forall k :: 0 <= k < |r.value.upcomingShows| ==> r.value.upcomingShows[k].startTime >= now
  {
    var found := FindVenue(st.venues, venueId);
    if found.None? then Err(NotFound("venue"))
    else
      var v := found.value;
      VenueListsTimed(st, venueId, now);
      Ok(VenuePage(v.id, v.name, Genres.Decode(v.genres), v.address, v.city, v.state,
                   v.phone, v.website, v.facebookLink, v.seekingTalent, v.imageLink,
                   v.description,
                   ArtistSlots(st, VenuePastShows(st, venueId, now)),
                   ArtistSlots(st, VenueUpcomingShows(st, venueId, now))))
  }

  /** The artist detail page for `artistId` at instant `now`. */
  function ArtistDetail(st: Store, artistId: int, now: int): (r: Result<ArtistPage>)
    ensures r.Err? <==> !HasArtist(st, artistId)
    ensures r.Err? ==> r.error.NotFound?
    ensures r.Ok? ==> PresentsArtist(r.value, FindArtist(st.artists, artistId).value)
    ensures r.Ok? ==> r.value.pastShowsCount == |r.value.pastShows|
    ensures r.Ok? ==> r.value.upcomingShowsCount == |r.value.upcomingShows|
    ensures r.Ok? ==> r.value.pastShowsCount + r.value.upcomingShowsCount == |ArtistShows(st, artistId)|
    ensures r.Ok? ==> forall k :: 0 <= k < |r.value.upcomingShows| ==> r.value.upcomingShows[k].startTime > now
    ensures r.Ok? ==> forall k :: 0 <= k < |r.value.pastShows| ==> r.value.pastShows[k].startTime <= now
  {
    var found := FindArtist(st.artists, artistId);
    if found.None? then Err(NotFound("artist"))
    else
      var a := found.value;
      ArtistListsTimed(st, artistId, now);
      var upcoming := VenueSlots(st, ArtistUpcomingShows(st, artistId, now));
      var past := VenueSlots(st, ArtistPastShows(st, artistId, now));
      Ok(ArtistPage(a.id, a.name, Genres.Decode(a.genres), a.city, a.state, a.phone,
                    a.facebookLink, a.imageLink, a.website, a.seekingVenue, a.description,
                    upcoming, past, |past|, |upcoming|))
  }

  /** The venue page's lists split the venue's shows at `now`. */
  lemma VenueListsTimed(st: Store, venueId: int, now: int)
    ensures |ArtistSlots(st, VenuePastShows(st, venueId, now))|
            + |ArtistSlots(st, VenueUpcomingShows(st, venueId, now))| == |VenueShows(st, venueId)|
    ensures var past := ArtistSlots(st, VenuePastShows(st, venueId, now));
            forall k :: 0 <= k < |past| ==> past[k].startTime < now
    ensures var upcoming := ArtistSlots(st, VenueUpcomingShows(st, venueId, now));
            forall k :: 0 <= k < |upcoming| ==> upcoming[k].startTime >= now
  {
    FilterPartition(VenueShows(st, venueId), StartsBefore(now));
  }

  /** The artist page's lists split the artist's shows at `now`. */
  lemma ArtistListsTimed(st: Store, artistId: int, now: int)
    ensures |VenueSlots(st, ArtistUpcomingShows(st, artistId, now))|
            + |VenueSlots(st, ArtistPastShows(st, artistId, now))| == |ArtistShows(st, artistId)|
    ensures var upcoming := VenueSlots(st, ArtistUpcomingShows(st, artistId, now));
            forall k :: 0 <= k < |upcoming| ==> upcoming[k].startTime > now
    ensures var past := VenueSlots(st, ArtistPastShows(st, artistId, now));
            forall k :: 0 <= k < |past| ==> past[k].startTime <= now
  {
    FilterPartition(ArtistShows(st, artistId), StartsAfter(now));
  }

  /** The edit form shows the stored artist: every field copied as stored,
      the genres decoded. */
  predicate Prefills(e: ArtistEdit, a: Artist)
  {
    && e.name == a.name && e.city == a.city && e.state == a.state && e.phone == a.phone
    && e.imageLink == a.imageLink && e.genres == Genres.Decode(a.genres)
    && e.facebookLink == a.facebookLink && e.website == a.website
    && e.seekingVenue == a.seekingVenue && e.description == a.description
  }

  /** The prefill data of the artist edit form for `artistId`. */
  function EditArtist(st: Store, artistId: int): (r: Result<ArtistEdit>)
    ensures r.Err? <==> FindArtist(st.artists, artistId).None?
    ensures r.Err? ==> r.error.NotFound?
    ensures r.Ok? ==> Prefills(r.value, FindArtist(st.artists, artistId).value)
  {
    var found := FindArtist(st.artists, artistId);
    if found.None? then Err(NotFound("artist"))
    else
      var a := found.value;
      Ok(ArtistEdit(a.name, a.city, a.state, a.phone, a.imageLink, Genres.Decode(a.genres),
                    a.facebookLink, a.website, a.seekingVenue, a.description))
  }

  /** `show_venue` as written: look the venue up, then one pass over its
      shows. It builds exactly the page `VenueDetail` describes. */
  method ShowVenue(st: Store, venueId: int, now: int) returns (r: Result<VenuePage>)
    ensures r == VenueDetail(st, venueId, now)
  {
    var found := FindVenue(st.venues, venueId);
    if found.None? {
      return Err(NotFound("venue"));
    }
    var v := found.value;
    var past, upcoming := SplitForVenue(st, VenueShows(st, venueId), now);
    r := Ok(VenuePage(v.id, v.name, Genres.Decode(v.genres), v.address, v.city, v.state,
                      v.phone, v.website, v.facebookLink, v.seekingTalent, v.imageLink,
                      v.description, past, upcoming));
  }

  /** The loop of `show_venue` (app.py:170-184): each show, in order, is
      appended to `past` when it starts before `now` and to `upcoming`
      otherwise. */
  method SplitForVenue(st: Store, shows: seq<Show>, now: int)
    returns (past: seq<ArtistSlot>, upcoming: seq<ArtistSlot>)
    ensures past == ArtistSlots(st, Filter(shows, StartsBefore(now)))
    ensures upcoming == ArtistSlots(st, Filter(shows, Not(StartsBefore(now))))
  {
    past := [];
    upcoming := [];
    for i := 0 to |shows|
      invariant past == ArtistSlots(st, Filter(shows[..i], StartsBefore(now)))
      invariant upcoming == ArtistSlots(st, Filter(shows[..i], Not(StartsBefore(now))))
    {
      ArtistSlotsStep(st, shows, i, StartsBefore(now));
      ArtistSlotsStep(st, shows, i, Not(StartsBefore(now)));
      var s := shows[i];
      if s.startTime < now {
        past := past + [ArtistSlotOf(st, s)];
      } else {
        upcoming := upcoming + [ArtistSlotOf(st, s)];
      }
    }
    assert shows[..|shows|] == shows;
  }

  /** `show_artist` as written: look the artist up, then one pass over its
      shows and a count of both lists. It builds exactly the page
      `ArtistDetail` describes. */
  method ShowArtist(st: Store, artistId: int, now: int) returns (r: Result<ArtistPage>)
    ensures r == ArtistDetail(st, artistId, now)
  {
    var found := FindArtist(st.artists, artistId);
    if found.None? {
      return Err(NotFound("artist"));
    }
    var a := found.value;
    var upcoming, past := SplitForArtist(st, ArtistShows(st, artistId), now);
    r := Ok(ArtistPage(a.id, a.name, Genres.Decode(a.genres), a.city, a.state, a.phone,
                       a.facebookLink, a.imageLink, a.website, a.seekingVenue, a.description,
                       upcoming, past, |past|, |upcoming|));
  }

  /** The loop of `show_artist` (app.py:296-310): each show, in order, is
      appended to `upcoming` when it starts after `now` and to `past`
      otherwise. */
  method SplitForArtist(st: Store, shows: seq<Show>, now: int)
    returns (upcoming: seq<VenueSlot>, past: seq<VenueSlot>)
    ensures upcoming == VenueSlots(st, Filter(shows, StartsAfter(now)))
    ensures past == VenueSlots(st, Filter(shows, Not(StartsAfter(now))))
  {
    upcoming := [];
    past := [];
    for i := 0 to |shows|
      invariant upcoming == VenueSlots(st, Filter(shows[..i], StartsAfter(now)))
      invariant past == VenueSlots(st, Filter(shows[..i], Not(StartsAfter(now))))
    {
      VenueSlotsStep(st, shows, i, StartsAfter(now));
      VenueSlotsStep(st, shows, i, Not(StartsAfter(now)));
      var s := shows[i];
      if s.startTime > now {
        upcoming := upcoming + [VenueSlotOf(st, s)];
      } else {
        past := past + [VenueSlotOf(st, s)];
      }
    }
    assert shows[..|shows|] == shows;
  }

  /** Slots distribute over concatenation. */
  lemma {:induction false} ArtistSlotsAppend(st: Store, xs: seq<Show>, ys: seq<Show>)
    ensures ArtistSlots(st, xs + ys) == ArtistSlots(st, xs) + ArtistSlots(st, ys)
  {
    if xs != [] {
      assert (xs + ys)[1..] == xs[1..] + ys;
      ArtistSlotsAppend(st, xs[1..], ys);
    } else {
      assert xs + ys == ys;
    }
  }

  /** Slots distribute over concatenation. */
  lemma {:induction false} VenueSlotsAppend(st: Store, xs: seq<Show>, ys: seq<Show>)
    ensures VenueSlots(st, xs + ys) == VenueSlots(st, xs) + VenueSlots(st, ys)
  {
    if xs != [] {
      assert (xs + ys)[1..] == xs[1..] + ys;
      VenueSlotsAppend(st, xs[1..], ys);
    } else {
      assert xs + ys == ys;
    }
  }

  /** One loop step: the slots of a selection from `xs + [s]` are those of
      the selection from `xs`, followed by `s`'s slot when `s` is selected. */
  lemma ArtistSlotsStep(st: Store, shows: seq<Show>, i: nat, p: Show -> bool)
    requires i < |shows|
    ensures ArtistSlots(st, Filter(shows[..i + 1], p))
            == ArtistSlots(st, Filter(shows[..i], p)) + (if p(shows[i]) then [ArtistSlotOf(st, shows[i])] else [])
  {
    assert shows[..i + 1] == shows[..i] + [shows[i]];
    FilterSnoc(shows[..i], shows[i], p);
    ArtistSlotsAppend(st, Filter(shows[..i], p), if p(shows[i]) then [shows[i]] else []);
  }

  /** One loop step of the artist page, as `ArtistSlotsStep`. */
  lemma VenueSlotsStep(st: Store, shows: seq<Show>, i: nat, p: Show -> bool)
    requires i < |shows|
    ensures VenueSlots(st, Filter(shows[..i + 1], p))
            == VenueSlots(st, Filter(shows[..i], p)) + (if p(shows[i]) then [VenueSlotOf(st, shows[i])] else [])
  {
    assert shows[..i + 1] == shows[..i] + [shows[i]];
    FilterSnoc(shows[..i], shows[i], p);
    VenueSlotsAppend(st, Filter(shows[..i], p), if p(shows[i]) then [shows[i]] else []);
  }

  /** On the venue page every show of the venue lands in exactly one of the
      two lists, keeping its relative order, and it is past exactly when it
      starts strictly before `now`. */
  lemma VenuePartition(st: Store, venueId: int, now: int, s: Show)
    ensures multiset(VenuePastShows(st, venueId, now)) + multiset(VenueUpcomingShows(st, venueId, now))
            == multiset(VenueShows(st, venueId))
    ensures Subsequence(VenuePastShows(st, venueId, now), VenueShows(st, venueId))
    ensures Subsequence(VenueUpcomingShows(st, venueId, now), VenueShows(st, venueId))
    ensures s in VenueShows(st, venueId) ==>
              && (s in VenuePastShows(st, venueId, now) <==> s.startTime < now)
              && (s in VenueUpcomingShows(st, venueId, now) <==> s.startTime >= now)
  {
    FilterSubsequence(VenueShows(st, venueId), StartsBefore(now));
    FilterSubsequence(VenueShows(st, venueId), Not(StartsBefore(now)));
    FilterPartition(VenueShows(st, venueId), StartsBefore(now));
    FilterMembership(VenueShows(st, venueId), StartsBefore(now), s);
    FilterMembership(VenueShows(st, venueId), Not(StartsBefore(now)), s);
  }

  /** On the artist page every show of the artist lands in exactly one of the
      two lists, keeping its relative order, and it is upcoming exactly when
      it starts strictly after `now`. */
  lemma ArtistPartition(st: Store, artistId: int, now: int, s: Show)
    ensures multiset(ArtistUpcomingShows(st, artistId, now)) + multiset(ArtistPastShows(st, artistId, now))
            == multiset(ArtistShows(st, artistId))
    ensures Subsequence(ArtistUpcomingShows(st, artistId, now), ArtistShows(st, artistId))
    ensures Subsequence(ArtistPastShows(st, artistId, now), ArtistShows(st, artistId))
    ensures s in ArtistShows(st, artistId) ==>
              && (s in ArtistUpcomingShows(st, artistId, now) <==> s.startTime > now)
              && (s in ArtistPastShows(st, artistId, now) <==> s.startTime <= now)
  {
    FilterSubsequence(ArtistShows(st, artistId), StartsAfter(now));
    FilterSubsequence(ArtistShows(st, artistId), Not(StartsAfter(now)));
    FilterPartition(ArtistShows(st, artistId), StartsAfter(now));
    FilterMembership(ArtistShows(st, artistId), StartsAfter(now), s);
    FilterMembership(ArtistShows(st, artistId), Not(StartsAfter(now)), s);
  }

  /** Where one stored show is listed on its venue's page: under past shows
      when it starts before `now`, under upcoming shows otherwise, never in
      both. */
  lemma VenuePagePlacement(st: Store, s: Show, now: int)
    requires Valid(st)
    requires s in st.shows
    ensures VenueDetail(st, s.venueId, now).Ok?
    ensures var page := VenueDetail(st, s.venueId, now).value;
            && (s.startTime < now ==> ArtistSlotOf(st, s) in page.pastShows
                                      && ArtistSlotOf(st, s) !in page.upcomingShows)
            && (s.startTime >= now ==> ArtistSlotOf(st, s) in page.upcomingShows
                                       && ArtistSlotOf(st, s) !in page.pastShows)
  {
    ShowReferencesFound(st, s);
    FilterMembership(st.shows, AtVenue(s.venueId), s);
    VenuePartition(st, s.venueId, now, s);
    if s.startTime < now {
      ArtistSlotListed(st, VenuePastShows(st, s.venueId, now), s);
    } else {
      ArtistSlotListed(st, VenueUpcomingShows(st, s.venueId, now), s);
    }
    SlotsAvoidUnlisted(st, s, now);
  }

  /** A show missing from one list of its page has its slot missing too:
      within one page the slot determines the show's start time, and the
      two lists hold shows on opposite sides of `now`. */
  lemma SlotsAvoidUnlisted(st: Store, s: Show, now: int)
    ensures s.startTime < now ==> ArtistSlotOf(st, s) !in ArtistSlots(st, VenueUpcomingShows(st, s.venueId, now))
    ensures s.startTime >= now ==> ArtistSlotOf(st, s) !in ArtistSlots(st, VenuePastShows(st, s.venueId, now))
    ensures s.startTime > now ==> VenueSlotOf(st, s) !in VenueSlots(st, ArtistPastShows(st, s.artistId, now))
    ensures s.startTime <= now ==> VenueSlotOf(st, s) !in VenueSlots(st, ArtistUpcomingShows(st, s.artistId, now))
  {
    SlotTimesFollow(st, VenueUpcomingShows(st, s.venueId, now));
    SlotTimesFollow(st, VenuePastShows(st, s.venueId, now));
    SlotTimesFollow(st, ArtistPastShows(st, s.artistId, now));
    SlotTimesFollow(st, ArtistUpcomingShows(st, s.artistId, now));
  }

  /** Each slot carries the start instant of the show it lists. */
  lemma SlotTimesFollow(st: Store, shows: seq<Show>)
    ensures forall k :: 0 <= k < |shows| ==> ArtistSlots(st, shows)[k].startTime == shows[k].startTime
    ensures forall k :: 0 <= k < |shows| ==> VenueSlots(st, shows)[k].startTime == shows[k].startTime
  {
  }

  /** A listed show's slot is among the slots of the list. */
  lemma ArtistSlotListed(st: Store, shows: seq<Show>, s: Show)
    requires s in shows
    ensures ArtistSlotOf(st, s) in ArtistSlots(st, shows)
  {
    var k :| 0 <= k < |shows| && shows[k] == s;
    assert ArtistSlots(st, shows)[k] == ArtistSlotOf(st, s);
  }

  /** Where one stored show is listed on its artist's page: under upcoming
      shows when it starts after `now`, under past shows otherwise, never in
      both. */
  lemma ArtistPagePlacement(st: Store, s: Show, now: int)
    requires Valid(st)
    requires s in st.shows
    ensures ArtistDetail(st, s.artistId, now).Ok?
    ensures var page := ArtistDetail(st, s.artistId, now).value;
            && (s.startTime > now ==> VenueSlotOf(st, s) in page.upcomingShows
                                      && VenueSlotOf(st, s) !in page.pastShows)
            && (s.startTime <= now ==> VenueSlotOf(st, s) in page.pastShows
                                       && VenueSlotOf(st, s) !in page.upcomingShows)
  {
    ShowReferencesFound(st, s);
    FilterMembership(st.shows, ByArtist(s.artistId), s);
    ArtistPartition(st, s.artistId, now, s);
    if s.startTime > now {
      VenueSlotListed(st, ArtistUpcomingShows(st, s.artistId, now), s);
    } else {
      VenueSlotListed(st, ArtistPastShows(st, s.artistId, now), s);
    }
    SlotsAvoidUnlisted(st, s, now);
  }

  /** A listed show's slot is among the slots of the list. */
  lemma VenueSlotListed(st: Store, shows: seq<Show>, s: Show)
    requires s in shows
    ensures VenueSlotOf(st, s) in VenueSlots(st, shows)
  {
    var k :| 0 <= k < |shows| && shows[k] == s;
    assert VenueSlots(st, shows)[k] == VenueSlotOf(st, s);
  }

  /** The two pages disagree on a show starting exactly at `now`: its venue
      lists it as upcoming while its artist lists it as past. */
  lemma BoundaryShowDisagrees(st: Store, s: Show, now: int)
    requires Valid(st)
    requires s in st.shows
    requires s.startTime == now
    ensures ArtistSlotOf(st, s) in VenueDetail(st, s.venueId, now).value.upcomingShows
    ensures VenueSlotOf(st, s) in ArtistDetail(st, s.artistId, now).value.pastShows
  {
    VenuePagePlacement(st, s, now);
    ArtistPagePlacement(st, s, now);
  }

  /** The edit form and the artist page decode the stored genres alike. */
  lemma EditAgreesWithPage(st: Store, artistId: int, now: int)
    requires FindArtist(st.artists, artistId).Some?
    ensures EditArtist(st, artistId).Ok?
    ensures EditArtist(st, artistId).value.genres == ArtistDetail(st, artistId, now).value.genres
  {
  }
}

=== FILE: records.dfy ===
/** The three record types of the booking directory (app.py:34-74) and the
    store that holds them. Ids are assigned by per-table counters, as the
    database's serial primary keys are. */
module Records {
  import opened Outcomes

  datatype Venue = Venue(
    id: nat,
    name: string,
    city: string,
    state: string,
    address: string,
    phone: string,
    genres: string,
    facebookLink: string,
    imageLink: string,
    website: string,
    seekingTalent: bool,
    description: string)

  datatype Artist = Artist(
    id: nat,
    name: string,
    city: string,
    state: string,
    phone: string,
    genres: string,
    facebookLink: string,
    imageLink: string,
    website: string,
    seekingVenue: bool,
    description: string)

  /** A booking of one artist at one venue; `startTime` is an instant on the
      same clock as the `now` every query is evaluated at. */
  datatype Show = Show(id: nat, artistId: nat, venueId: nat, startTime: int)

  /** The largest id a serial primary key can take: `db.Integer` ids
      (app.py:36, app.py:53, app.py:69) are 32-bit signed integers. */
  const MaxSerial: nat := 2147483647

  datatype Store = Store(
    venues: seq<Venue>,
    artists: seq<Artist>,
    shows: seq<Show>,
    nextVenueId: nat,
    nextArtistId: nat,
    nextShowId: nat)

  /** Is there a venue with this id? */
  predicate HasVenue(st: Store, id: int)
  {
    exists i :: 0 <= i < |st.venues| && st.venues[i].id == id
  }

  /** Is there an artist with this id? */
  predicate HasArtist(st: Store, id: int)
  {
    exists i :: 0 <= i < |st.artists| && st.artists[i].id == id
  }

  /** Is there a show with this id? */
  predicate HasShow(st: Store, id: int)
  {
    exists i :: 0 <= i < |st.shows| && st.shows[i].id == id
  }

  /** What the database guarantees of every committed state: primary keys are
      unique and below their table's counter, and every show references an
      existing artist and venue (the foreign keys of app.py:70-73). */
  predicate Valid(st: Store)
  {
    && VenueIdsUnique(st.venues)
    && (forall i :: 0 <= i < |st.venues| ==> st.venues[i].id < st.nextVenueId)
    && (forall i, j :: 0 <= i < j < |st.artists| ==> st.artists[i].id != st.artists[j].id)
    && (forall i :: 0 <= i < |st.artists| ==> st.artists[i].id < st.nextArtistId)
    && (forall i, j :: 0 <= i < j < |st.shows| ==> st.shows[i].id != st.shows[j].id)
    && (forall i :: 0 <= i < |st.shows| ==> st.shows[i].id < st.nextShowId)
    && (forall i :: 0 <= i < |st.shows| ==> HasArtist(st, st.shows[i].artistId))
    && (forall i :: 0 <= i < |st.shows| ==> HasVenue(st, st.shows[i].venueId))
  }

  /** No two venues share an id. */
  predicate VenueIdsUnique(venues: seq<Venue>)
  {
    forall i, j :: 0 <= i < j < |venues| ==> venues[i].id != venues[j].id
  }

  /** A stored show of a valid store finds its venue and its artist. */
  lemma ShowReferencesFound(st: Store, s: Show)
    requires Valid(st)
    requires s in st.shows
    ensures FindVenue(st.venues, s.venueId).Some?
    ensures FindArtist(st.artists, s.artistId).Some?
  {
    var i :| 0 <= i < |st.shows| && st.shows[i] == s;
  }

  /** `Venue.query.get(id)`: the venue with this id, if any. */
  function FindVenue(venues: seq<Venue>, id: int): (r: Option<Venue>)
    ensures r.None? <==> forall i :: 0 <= i < |venues| ==> venues[i].id != id
    ensures r.Some? ==> r.value in venues && r.value.id == id
  {
    if venues == [] then None
    else if venues[0].id == id then Some(venues[0])
    else FindVenue(venues[1..], id)
  }

  /** `Artist.query.get(id)`: the artist with this id, if any. */
  function FindArtist(artists: seq<Artist>, id: int): (r: Option<Artist>)
    ensures r.None? <==> forall i :: 0 <= i < |artists| ==> artists[i].id != id
    ensures r.Some? ==> r.value in artists && r.value.id == id
  {
    if artists == [] then None
    else if artists[0].id == id then Some(artists[0])
    else FindArtist(artists[1..], id)
  }

  /** With unique ids, the venue found for an id is the only venue carrying it. */
  lemma FindVenueUnique(st: Store, i: nat)
    requires Valid(st)
    requires i < |st.venues|
    ensures FindVenue(st.venues, st.venues[i].id) == Some(st.venues[i])
  {
    var r := FindVenue(st.venues, st.venues[i].id);
    var j :| 0 <= j < |st.venues| && st.venues[j] == r.value;
    assert i == j;
  }

  /** With unique ids, the artist found for an id is the only artist carrying it. */
  lemma FindArtistUnique(st: Store, i: nat)
    requires Valid(st)
    requires i < |st.artists|
    ensures FindArtist(st.artists, st.artists[i].id) == Some(st.artists[i])
  {
    var r := FindArtist(st.artists, st.artists[i].id);
    var j :| 0 <= j < |st.artists| && st.artists[j] == r.value;
    assert i == j;
  }

  /** Appending a venue does not change what an existing id finds. */
  lemma FindVenueAppend(venues: seq<Venue>, v: Venue, id: int)
    requires FindVenue(venues, id).Some?
    ensures FindVenue(venues + [v], id) == FindVenue(venues, id)
    decreases |venues|
  {
    if venues[0].id != id {
      assert (venues + [v])[1..] == venues[1..] + [v];
      FindVenueAppend(venues[1..], v, id);
    }
  }

  /** Appending an artist does not change what an existing id finds. */
  lemma FindArtistAppend(artists: seq<Artist>, a: Artist, id: int)
    requires FindArtist(artists, id).Some?
    ensures FindArtist(artists + [a], id) == FindArtist(artists, id)
    decreases |artists|
  {
    if artists[0].id != id {
      assert (artists + [a])[1..] == artists[1..] + [a];
      FindArtistAppend(artists[1..], a, id);
    }
  }
}

=== FILE: repository.dfy ===
/** The store effects of the three creation handlers (app.py:200-234,
    app.py:385-416, app.py:445-468). Each builds one record from the submitted
    form, adds it and commits; any database error rolls the session back, so
    a creation either adds exactly one record or changes nothing. */
module Repository {
  import opened Outcomes
  import opened Records

  /** The submitted venue form; `genres` is the text the database driver
      stores for the form's list of genres. */
  datatype VenueForm = VenueForm(
    name: string,
    city: string,
    state: string,
    address: string,
    phone: string,
    genres: string,
    facebookLink: string,
    imageLink: string,
    website: string,
    seekingTalent: bool,
    description: string)

  datatype ArtistForm = ArtistForm(
    name: string,
    city: string,
    state: string,
    phone: string,
    genres: string,
    facebookLink: string,
    imageLink: string,
    website: string,
    seekingVenue: bool,
    description: string)

  /** The submitted show form: each field is absent when the form gave no
      usable value for it. */
  datatype ShowForm = ShowForm(artistId: Option<int>, venueId: Option<int>, startTime: Option<int>)

  /** The store after a creation attempt, and the new record's id or the
      reason the commit failed. */
  datatype Attempt = Attempt(store: Store, result: Result<nat>)

  /** A bounded text column: its name, the value offered for it and its
      declared width. */
  datatype Column = Column(name: string, value: string, width: nat)

  predicate Overflows(c: Column)
  {
    |c.value| > c.width
  }

  /** Every value fits its column. */
  predicate Fits(cols: seq<Column>)
  {
    forall k :: 0 <= k < |cols| ==> !Overflows(cols[k])
  }

  /** The name of the first column whose value is wider than the column. */
  function FirstOverflow(cols: seq<Column>): (r: Option<string>)
    ensures r.None? <==> Fits(cols)
    ensures r.Some? ==> exists k :: 0 <= k < |cols| && Overflows(cols[k]) && cols[k].name == r.value
  {
    if cols == [] then None
    else if Overflows(cols[0]) then Some(cols[0].name)
    else FirstOverflow(cols[1..])
  }

  /** The bounded columns of the venues table (app.py:38-47); `name` is
      declared without a width. */
  function VenueColumns(f: VenueForm): seq<Column>
  {
    [ Column("city", f.city, 120), Column("state", f.state, 120),
      Column("address", f.address, 120), Column("phone", f.phone, 120),
      Column("genres", f.genres, 120), Column("facebook_link", f.facebookLink, 120),
      Column("image_link", f.imageLink, 500), Column("website", f.website, 120),
      Column("description", f.description, 1500) ]
  }

  /** The bounded columns of the artists table (app.py:55-63). */
  function ArtistColumns(f: ArtistForm): seq<Column>
  {
    [ Column("city", f.city, 120), Column("state", f.state, 120),
      Column("phone", f.phone, 120), Column("genres", f.genres, 120),
      Column("facebook_link", f.facebookLink, 120), Column("image_link", f.imageLink, 500),
      Column("website", f.website, 120), Column("description", f.description, 1500) ]
  }

  /** The venue record a form becomes once the database assigns `id`. */
  function VenueFrom(id: nat, f: VenueForm): Venue
  {
    Venue(id, f.name, f.city, f.state, f.address, f.phone, f.genres,
          f.facebookLink, f.imageLink, f.website, f.seekingTalent, f.description)
  }

  /** The artist record a form becomes once the database assigns `id`. */
  function ArtistFrom(id: nat, f: ArtistForm): Artist
  {
    Artist(id, f.name, f.city, f.state, f.phone, f.genres,
           f.facebookLink, f.imageLink, f.website, f.seekingVenue, f.description)
  }

  /** A store holding nothing, with every id counter at the first serial value. */
  function EmptyStore(): (st: Store)
    ensures Valid(st)
    ensures st.venues == [] && st.artists == [] && st.shows == []
  {
    Store([], [], [], 1, 1, 1)
  }

  /** `create_venue_submission`: adds the venue unless a value is too wide for
      its column or the id sequence is used up, in which case the store is
      left as it was. A too-wide value is the error reported when both hold. */
  function CreateVenue(st: Store, f: VenueForm): (r: Attempt)
    ensures r.result.Err? <==> !Fits(VenueColumns(f)) || st.nextVenueId > MaxSerial
    ensures r.result.Err? ==> r.store == st
    ensures r.result.Err? ==> (r.result.error.TooLong? <==> !Fits(VenueColumns(f)))
    ensures r.result.Err? ==> (r.result.error.IdsExhausted? <==> Fits(VenueColumns(f)))
    ensures r.result.Ok? ==> r.result.value <= MaxSerial
    ensures r.result.Ok? ==> r.store.venues == st.venues + [VenueFrom(r.result.value, f)]
    ensures r.result.Ok? ==> r.store.artists == st.artists && r.store.shows == st.shows
    ensures r.result.Ok? ==> r.store.nextArtistId == st.nextArtistId && r.store.nextShowId == st.nextShowId
    ensures Valid(st) && r.result.Ok? ==> !HasVenue(st, r.result.value)
    ensures Valid(st) ==> Valid(r.store)
  {
    var overflow := FirstOverflow(VenueColumns(f));
    if overflow.Some? then Attempt(st, Err(TooLong(overflow.value)))
    else if st.nextVenueId > MaxSerial then Attempt(st, Err(IdsExhausted("venues")))
    else
      var id := st.nextVenueId;
      var st' := st.(venues := st.venues + [VenueFrom(id, f)], nextVenueId := id + 1);
      assert Valid(st) ==> Valid(st') && !HasVenue(st, id) by {
        if Valid(st) {
          AddVenueKeepsValid(st, VenueFrom(id, f));
        }
      }
      Attempt(st', Ok(id))
  }

  lemma AddVenueKeepsValid(st: Store, v: Venue)
    requires Valid(st)
    requires v.id == st.nextVenueId
    ensures Valid(st.(venues := st.venues + [v], nextVenueId := v.id + 1))
    ensures !HasVenue(st, v.id)
  {
    var st' := st.(venues := st.venues + [v], nextVenueId := v.id + 1);
    forall i | 0 <= i < |st'.shows|
      ensures HasVenue(st', st'.shows[i].venueId)
    {
      var j :| 0 <= j < |st.venues| && st.venues[j].id == st.shows[i].venueId;
      assert st'.venues[j] == st.venues[j];
    }
  }

  /** `create_artist_submission`: adds the artist unless a value is too wide
      for its column or the id sequence is used up, in which case the store
      is left as it was. A too-wide value is the error reported when both hold. */
  function CreateArtist(st: Store, f: ArtistForm): (r: Attempt)
    ensures r.result.Err? <==> !Fits(ArtistColumns(f)) || st.nextArtistId > MaxSerial
    ensures r.result.Err? ==> r.store == st
    ensures r.result.Err? ==> (r.result.error.TooLong? <==> !Fits(ArtistColumns(f)))
    ensures r.result.Err? ==> (r.result.error.IdsExhausted? <==> Fits(ArtistColumns(f)))
    ensures r.result.Ok? ==> r.result.value <= MaxSerial
    ensures r.result.Ok? ==> r.store.artists == st.artists + [ArtistFrom(r.result.value, f)]
    ensures r.result.Ok? ==> r.store.venues == st.venues && r.store.shows == st.shows
    ensures r.result.Ok? ==> r.store.nextVenueId == st.nextVenueId && r.store.nextShowId == st.nextShowId
    ensures Valid(st) && r.result.Ok? ==> !HasArtist(st, r.result.value)
    ensures Valid(st) ==> Valid(r.store)
  {
    var overflow := FirstOverflow(ArtistColumns(f));
    if overflow.Some? then Attempt(st, Err(TooLong(overflow.value)))
    else if st.nextArtistId > MaxSerial then Attempt(st, Err(IdsExhausted("artists")))
    else
      var id := st.nextArtistId;
      var st' := st.(artists := st.artists + [ArtistFrom(id, f)], nextArtistId := id + 1);
      assert Valid(st) ==> Valid(st') && !HasArtist(st, id) by {
        if Valid(st) {
          AddArtistKeepsValid(st, ArtistFrom(id, f));
        }
      }
      Attempt(st', Ok(id))
  }

  lemma AddArtistKeepsValid(st: Store, a: Artist)
    requires Valid(st)
    requires a.id == st.nextArtistId
    ensures Valid(st.(artists := st.artists + [a], nextArtistId := a.id + 1))
    ensures !HasArtist(st, a.id)
  {
    var st' := st.(artists := st.artists + [a], nextArtistId := a.id + 1);
    forall i | 0 <= i < |st'.shows|
      ensures HasArtist(st', st'.shows[i].artistId)
    {
      var j :| 0 <= j < |st.artists| && st.artists[j].id == st.shows[i].artistId;
      assert st'.artists[j] == st.artists[j];
    }
  }

  /** Would the database accept this show? Every column is NOT NULL and both
      ids are foreign keys (app.py:69-74). */
  predicate ShowAccepted(st: Store, f: ShowForm)
  {
    && f.artistId.Some? && f.venueId.Some? && f.startTime.Some?
    && HasArtist(st, f.artistId.value) && HasVenue(st, f.venueId.value)
  }

  /** `create_show_submission`: adds the show when all three fields are
      present, both ids name existing records and the id sequence has a value
      left; otherwise the store is left as it was. */
  function CreateShow(st: Store, f: ShowForm): (r: Attempt)
    ensures r.result.Ok? <==> ShowAccepted(st, f) && st.nextShowId <= MaxSerial
    ensures r.result.Err? ==> r.store == st
    ensures r.result.Err? ==>
      (r.result.error.MissingField? <==> f.artistId.None? || f.venueId.None? || f.startTime.None?)
    ensures r.result.Err? ==> (r.result.error.IdsExhausted? <==> ShowAccepted(st, f))
    ensures r.result.Ok? ==> r.result.value <= MaxSerial
    ensures r.result.Ok? ==>
      && |r.store.shows| == |st.shows| + 1
      && r.store.shows[..|st.shows|] == st.shows
      && r.store.shows[|st.shows|]
         == Show(r.result.value, f.artistId.value, f.venueId.value, f.startTime.value)
      && r.store.venues == st.venues && r.store.artists == st.artists
      && r.store.nextVenueId == st.nextVenueId && r.store.nextArtistId == st.nextArtistId
    ensures Valid(st) && r.result.Ok? ==> !HasShow(st, r.result.value)
    ensures Valid(st) ==> Valid(r.store)
  {
    if f.artistId.None? then Attempt(st, Err(MissingField("artist_id")))
    else if f.venueId.None? then Attempt(st, Err(MissingField("venue_id")))
    else if f.startTime.None? then Attempt(st, Err(MissingField("start_time")))
    else if FindArtist(st.artists, f.artistId.value).None? then Attempt(st, Err(UnknownReference("artist_id")))
    else if FindVenue(st.venues, f.venueId.value).None? then Attempt(st, Err(UnknownReference("venue_id")))
    else if st.nextShowId > MaxSerial then Attempt(st, Err(IdsExhausted("shows")))
    else
      var s := Show(st.nextShowId, f.artistId.value, f.venueId.value, f.startTime.value);
      var st' := st.(shows := st.shows + [s], nextShowId := s.id + 1);
      assert Valid(st) ==> Valid(st') && !HasShow(st, s.id) by {
        if Valid(st) {
          AddShowKeepsValid(st, s);
        }
      }
      assert st'.shows[..|st.shows|] == st.shows;
      Attempt(st', Ok(s.id))
  }

  lemma AddShowKeepsValid(st: Store, s: Show)
    requires Valid(st)
    requires s.id == st.nextShowId
    requires HasArtist(st, s.artistId) && HasVenue(st, s.venueId)
    ensures Valid(st.(shows := st.shows + [s], nextShowId := s.id + 1))
    ensures !HasShow(st, s.id)
  {
  }

  /** Creating a venue and then looking its id up gives back the submitted
      form as a record. */
  lemma CreateVenueThenFind(st: Store, f: VenueForm)
    requires Valid(st)
    requires CreateVenue(st, f).result.Ok?
    ensures var r := CreateVenue(st, f);
            FindVenue(r.store.venues, r.result.value) == Some(VenueFrom(r.result.value, f))
  {
    var r := CreateVenue(st, f);
    FindVenueUnique(r.store, |st.venues|);
  }

  /** Creating an artist and then looking its id up gives back the submitted
      form as a record. */
  lemma CreateArtistThenFind(st: Store, f: ArtistForm)
    requires Valid(st)
    requires CreateArtist(st, f).result.Ok?
    ensures var r := CreateArtist(st, f);
            FindArtist(r.store.artists, r.result.value) == Some(ArtistFrom(r.result.value, f))
  {
    var r := CreateArtist(st, f);
    FindArtistUnique(r.store, |st.artists|);
  }
}

=== FILE: seqs.dfy ===
/** Order-preserving selection over sequences: the one notion behind every
    "shows of this venue", "past shows" and "venues in this city" list. */
module Seqs {

  /** The elements of `xs` satisfying `p`, in their original relative order. */
  function Filter<T>(xs: seq<T>, p: T -> bool): (ys: seq<T>)
    ensures |ys| <= |xs|
    ensures forall k :: 0 <= k < |ys| ==> p(ys[k])
  {
    if xs == [] then []
    else (if p(xs[0]) then [xs[0]] else []) + Filter(xs[1..], p)
  }

  /** `ys` can be obtained from `xs` by deleting elements: the elements of
      `ys` occur in `xs` in the same relative order. */
  predicate Subsequence<T(==)>(ys: seq<T>, xs: seq<T>)
    decreases |xs|
  {
    if ys == [] then true
    else if xs == [] then false
    else (ys[0] == xs[0] && Subsequence(ys[1..], xs[1..])) || Subsequence(ys, xs[1..])
  }

  /** Selection keeps the selected elements in their original relative order. */
  lemma {:induction false} FilterSubsequence<T>(xs: seq<T>, p: T -> bool)
    ensures Subsequence(Filter(xs, p), xs)
    decreases |xs|
  {
    if xs != [] {
      FilterSubsequence(xs[1..], p);
      FilterCons(xs, p);
      if p(xs[0]) {
        assert Filter(xs, p)[1..] == Filter(xs[1..], p);
      }
    }
  }

  /** The complement of a selection predicate. */
  function Not<T>(p: T -> bool): T -> bool
  {
    x => !p(x)
  }

  /** Selecting from a sequence grown at the end extends the selection at the
      end: the form a left-to-right loop with `append` needs. */
  lemma {:induction false} FilterSnoc<T>(xs: seq<T>, x: T, p: T -> bool)
    ensures Filter(xs + [x], p) == Filter(xs, p) + (if p(x) then [x] else [])
    decreases |xs|
  {
    if xs == [] {
      assert xs + [x] == [x];
    } else {
      assert (xs + [x])[0] == xs[0];
      assert (xs + [x])[1..] == xs[1..] + [x];
      FilterSnoc(xs[1..], x, p);
    }
  }

  /** A predicate and its complement split a sequence: every element lands in
      exactly one of the two selections, counted with multiplicity, so the
      two lengths add up. */
  lemma FilterPartition<T>(xs: seq<T>, p: T -> bool)
    ensures multiset(Filter(xs, p)) + multiset(Filter(xs, Not(p))) == multiset(xs)
    ensures |Filter(xs, p)| + |Filter(xs, Not(p))| == |xs|
  {
    FilterSplits(xs, p);
    assert |multiset(Filter(xs, p)) + multiset(Filter(xs, Not(p)))| == |multiset(xs)|;
  }

  /** The multiset half of `FilterPartition`, by induction on `xs`. */
  lemma {:induction false} FilterSplits<T>(xs: seq<T>, p: T -> bool)
    ensures multiset(Filter(xs, p)) + multiset(Filter(xs, Not(p))) == multiset(xs)
    decreases |xs|
  {
    if xs != [] {
      var rest := xs[1..];
      FilterSplits(rest, p);
      assert xs == [xs[0]] + rest;
      assert multiset(xs) == multiset([xs[0]]) + multiset(rest);
      FilterCons(xs, p);
      FilterCons(xs, Not(p));
      if p(xs[0]) {
        assert multiset(Filter(xs, p)) == multiset([xs[0]]) + multiset(Filter(rest, p));
      } else {
        assert multiset(Filter(xs, Not(p))) == multiset([xs[0]]) + multiset(Filter(rest, Not(p)));
      }
    }
  }

  /** One unfolding of `Filter`, stated as a fact about the head. */
  lemma FilterCons<T>(xs: seq<T>, p: T -> bool)
    requires xs != []
    ensures p(xs[0]) ==> Filter(xs, p) == [xs[0]] + Filter(xs[1..], p)
    ensures !p(xs[0]) ==> Filter(xs, p) == Filter(xs[1..], p)
  {
  }

  /** Selection distributes over concatenation. */
  lemma {:induction false} FilterAppend<T>(xs: seq<T>, ys: seq<T>, p: T -> bool)
    ensures Filter(xs + ys, p) == Filter(xs, p) + Filter(ys, p)
    decreases |xs|
  {
    if xs == [] {
      assert xs + ys == ys;
    } else {
      assert (xs + ys)[0] == xs[0];
      assert (xs + ys)[1..] == xs[1..] + ys;
      FilterAppend(xs[1..], ys, p);
    }
  }

  /** An element is selected exactly when it occurs and satisfies `p`. */
  lemma {:induction false} FilterMembership<T>(xs: seq<T>, p: T -> bool, x: T)
    ensures x in Filter(xs, p) <==> x in xs && p(x)
    decreases |xs|
  {
    if xs != [] {
      FilterMembership(xs[1..], p, x);
      assert xs == [xs[0]] + xs[1..];
      FilterCons(xs, p);
    }
  }

  /** Both predicates at once. */
  function Both<T>(p: T -> bool, q: T -> bool): T -> bool
  {
    x => p(x) && q(x)
  }

  /** Selecting by `p` and then by `q` is selecting by both at once. */
  lemma {:induction false} FilterFilter<T>(xs: seq<T>, p: T -> bool, q: T -> bool)
    ensures Filter(Filter(xs, p), q) == Filter(xs, Both(p, q))
    decreases |xs|
  {
    if xs != [] {
      FilterFilter(xs[1..], p, q);
      var head := if p(xs[0]) then [xs[0]] else [];
      FilterAppend(head, Filter(xs[1..], p), q);
      if p(xs[0]) {
        assert head[1..] == [];
      }
    }
  }

  /** Predicates that agree everywhere select the same elements. */
  lemma {:induction false} FilterSamePredicate<T>(xs: seq<T>, p: T -> bool, q: T -> bool)
    requires forall x :: p(x) == q(x)
    ensures Filter(xs, p) == Filter(xs, q)
    decreases |xs|
  {
    if xs != [] {
      FilterSamePredicate(xs[1..], p, q);
    }
  }
}

=== FILE: text.dfy ===
/** Python's `str.strip(c)`, `str.split(sep)` and `sep.join(parts)` for a
    single character, the string operations behind genre decoding. */
module Text {

  /** The first position of `c` in `s`, or `|s|` when `c` does not occur. */
  function IndexOf(s: string, c: char): (i: nat)
    ensures i <= |s|
    ensures i < |s| ==> s[i] == c
    ensures forall j :: 0 <= j < i ==> s[j] != c
  {
    if s == [] then 0
    else if s[0] == c then 0
    else 1 + IndexOf(s[1..], c)
  }

  /** `sep.join(parts)`: the parts with one `sep` between neighbours. */
  function Join(parts: seq<string>, sep: char): string
  {
    if |parts| == 0 then ""
    else if |parts| == 1 then parts[0]
    else parts[0] + [sep] + Join(parts[1..], sep)
  }

  /** `s.split(sep)`: the maximal `sep`-free pieces between separators. Like
      Python it never yields an empty list; the empty string splits to `[""]`. */
  function Split(s: string, sep: char): (parts: seq<string>)
    ensures |parts| >= 1
    ensures forall k :: 0 <= k < |parts| ==> sep !in parts[k]
    ensures Join(parts, sep) == s
    decreases |s|
  {
    var i := IndexOf(s, sep);
    if i == |s| then [s]
    else [s[..i]] + Split(s[i + 1..], sep)
  }

  /** `s.lstrip(c)`: drops every leading `c`. The result is a suffix of `s`,
      everything cut off is `c`, and it does not itself start with `c`. */
  function TrimStart(s: string, c: char): (r: string)
    ensures |r| <= |s| && r == s[|s| - |r|..]
    ensures forall j :: 0 <= j < |s| - |r| ==> s[j] == c
    ensures r != [] ==> r[0] != c
  {
    if s != [] && s[0] == c then TrimStart(s[1..], c) else s
  }

  /** `s.rstrip(c)`: drops every trailing `c`. The result is a prefix of `s`,
      everything cut off is `c`, and it does not itself end with `c`. */
  function TrimEnd(s: string, c: char): (r: string)
    ensures |r| <= |s| && r == s[..|r|]
    ensures forall j :: |r| <= j < |s| ==> s[j] == c
    ensures r != [] ==> r[|r| - 1] != c
  {
    if s != [] && s[|s| - 1] == c then TrimEnd(s[..|s| - 1], c) else s
  }

  /** `r` occurs in `s` at offset `k` and every character of `s` outside
      that occurrence is `c`. */
  predicate PaddedWith(s: string, r: string, k: int, c: char)
  {
    && 0 <= k <= |s| - |r|
    && s[k..k + |r|] == r
    && (forall j :: 0 <= j < k ==> s[j] == c)
    && (forall j :: k + |r| <= j < |s| ==> s[j] == c)
  }

  /** `s.strip(c)`: a contiguous piece of `s` that neither starts nor ends
      with `c`, and everything around it is `c`. */
  function Strip(s: string, c: char): (r: string)
    ensures r != [] ==> r[0] != c && r[|r| - 1] != c
    ensures exists k :: PaddedWith(s, r, k, c)
    ensures c !in s ==> r == s
  {
    StripPadded(s, c);
    TrimEnd(TrimStart(s, c), c)
  }

  /** Stripping cuts off only `c`s, at offset `|s| - |lstrip|`. */
  lemma StripPadded(s: string, c: char)
    ensures PaddedWith(s, TrimEnd(TrimStart(s, c), c), |s| - |TrimStart(s, c)|, c)
    ensures c !in s ==> TrimEnd(TrimStart(s, c), c) == s
  {
    var t := TrimStart(s, c);
    var r := TrimEnd(t, c);
    PrefixOfSuffix(s, t, r, c);
    if c !in s {
      StripNothing(s, c);
    }
  }

  /** A prefix `r` of the suffix `t` of `s`, where `s` has only `c` before
      `t` and `t` has only `c` after `r`, is `s` padded with `c`. */
  lemma PrefixOfSuffix(s: string, t: string, r: string, c: char)
    requires |t| <= |s| && t == s[|s| - |t|..]
    requires forall j :: 0 <= j < |s| - |t| ==> s[j] == c
    requires |r| <= |t| && r == t[..|r|]
    requires forall j :: |r| <= j < |t| ==> t[j] == c
    ensures PaddedWith(s, r, |s| - |t|, c)
  {
    var k := |s| - |t|;
    assert s[k..k + |r|] == r;
    forall j | k + |r| <= j < |s|
      ensures s[j] == c
    {
      assert s[j] == t[j - k];
    }
  }

  /** With no `c` in `s`, neither trim removes anything. */
  lemma StripNothing(s: string, c: char)
    requires c !in s
    ensures TrimEnd(TrimStart(s, c), c) == s
  {
    assert TrimStart(s, c) == s;
  }

  /** A character that is neither the separator nor in any part is not in the
      joined string. */
  lemma {:induction false} JoinAvoids(parts: seq<string>, sep: char, c: char)
    requires c != sep
    requires forall k :: 0 <= k < |parts| ==> c !in parts[k]
    ensures c !in Join(parts, sep)
    decreases |parts|
  {
    if |parts| > 1 {
      JoinAvoids(parts[1..], sep, c);
    }
  }

  /** Splitting a join gives the parts back, provided no part contains the
      separator: `split` and `join` are inverse on that domain. */
  lemma {:induction false} SplitJoin(parts: seq<string>, sep: char)
    requires |parts| >= 1
    requires forall k :: 0 <= k < |parts| ==> sep !in parts[k]
    ensures Split(Join(parts, sep), sep) == parts
    decreases |parts|
  {
    var s := Join(parts, sep);
    if |parts| == 1 {
      assert IndexOf(s, sep) == |s|;
    } else {
      var p := parts[0];
      var rest := parts[1..];
      assert s == p + [sep] + Join(rest, sep);
      var i := IndexOf(s, sep);
      assert s[|p|] == sep;
      assert i == |p|;
      assert s[..i] == p;
      assert s[i + 1..] == Join(rest, sep);
      SplitJoin(rest, sep);
      assert parts == [p] + rest;
    }
  }

  /** Trimming a trailing `c` off `t + [c]` when `t` does not end with `c`
      gives back exactly `t`. */
  lemma TrimEndOne(t: string, c: char)
    requires t != [] ==> t[|t| - 1] != c
    ensures TrimEnd(t + [c], c) == t
  {
    var s := t + [c];
    assert s[..|s| - 1] == t;
  }

  /** Trimming a leading `c` off `[c] + t` when `t` does not start with `c`
      gives back exactly `t`. */
  lemma TrimStartOne(t: string, c: char)
    requires t != [] ==> t[0] != c
    ensures TrimStart([c] + t, c) == t
  {
    var s := [c] + t;
    assert s[1..] == t;
  }
}
